=== FILE: README.md ===
# Book notes sync — a Dafny model

This project models the core of a tool that copies the highlights and notes of
a Kindle library into a Notion database, one page per book. It covers three
pieces of logic that sit inside the tool's I/O code:

- **The page-body codec** (`NotionBlocks`, `blocks.dfy`). A book's highlights
  and notes become the children of its page: a `HIGHLIGHTS` heading, one quote
  block per highlight, a `NOTES` heading, then one callout block per note.
  Reading a page back keeps the quotes as highlights and the callouts as notes,
  in block order, and skips everything else.
- **The title-keyed upsert** (`NotionManager`, `manager.dfy`). The database is
  a sequence of pages `{id, title, author, body, archived}`. `GetBookId` finds
  the first live page with exactly the given title. `DeleteBook` archives it.
  `InsertBook` archives any existing page of that title and then creates the
  new page. The lemmas prove that at most one live page per title is kept,
  that a resync that succeeds both times leaves only the latest page live,
  and that a page inserted under a fresh id reads back with the content that
  was inserted.
- **The scraper's parsing** (`KindleScraper`, `scraper.dfy`). Each library
  entry is given as its text lines and its `(id, text)` content elements. The
  title is line 0. The author is line 1 without its first four characters.
  Non-empty texts are split into highlights (id `highlight`) and notes (any
  other id), each in panel order.

Both sides share the `Annotations` pair of highlights and notes
(`annotations.dfy`, module `BookNotes`). `sync.dfy` (`Sync`) connects the two files: a scraped book, once inserted,
reads back unchanged. It also holds the worked examples. `results.dfy` holds
the `Option` and `Result` types used for `None` returns and raised errors.

The store is abstract. Each request the manager sends is answered by a
`Reply` (status and message), which is a parameter of the model. The id the
store assigns to a new page is a parameter too. These are assumptions about
the store, not facts proved here:

- the title query returns only live pages whose title is exactly equal, in
  store order;
- an id denotes the page it was read from;
- a refused request leaves the store unchanged;
- a children request returns the first `pageSize` blocks of the page.

Points where the code behaves in a way worth stating:

- `get_book_id` never checks the query's status. It indexes `results`, so a
  refused lookup raises a missing-key error that does not carry the store's
  message. The model's `LookupFailed` therefore has no message.
- `insert_book` returns `True` on success. It ignores the result of
  `delete_book`, and a refused create after a successful archive leaves the
  old page archived and no new page; nothing is rolled back.
- `delete_book` tests `not book_id`, so a page whose id is the empty string
  counts as absent. The invariant lemmas assume non-empty ids.
- Every other refused request (the archive, the create and the children
  fetch) raises the generic `Exception` with the store's message
  (notion_manager.py:80, 151, 289). The model names the request that failed
  (`LookupFailed`, `FetchFailed`, `DeleteFailed`, `InsertFailed`).

## Model

| member | source | states |
|---|---|---|
| NotionBlocks.Encode | notion_manager.py:203-240 | The children are exactly `|hs| + |ns| + 2` blocks: the HIGHLIGHTS heading at 0, highlight `i` as a quote at `1 + i`, the NOTES heading at `|hs| + 1`, and note `j` as a callout at `|hs| + 2 + j`. Empty lists still get their heading. |
| NotionBlocks.BuildChildren | notion_manager.py:203-240 | The append loops build exactly the `Encode` layout, in input order. |
| NotionBlocks.Decode | notion_manager.py:70-76 | Decoding yields at most one text per block. |
| NotionBlocks.DecodeAppend | notion_manager.py:70-76 | Decoding works block by block: decoding `a + b` concatenates the highlights of `a` and `b`, and the notes of `a` and `b`, in that order. |
| NotionBlocks.DecodeMembers | notion_manager.py:70-76 | A text is a decoded highlight iff some block is a quote holding it. It is a decoded note iff some block is a callout holding it. Headings and other blocks contribute nothing. |
| NotionBlocks.DecodeQuotes | notion_manager.py:70-73 | A run of quote blocks decodes to its texts as highlights, in order, with no notes. |
| NotionBlocks.DecodeCallouts | notion_manager.py:74-76 | A run of callout blocks decodes to its texts as notes, in order, with no highlights. |
| NotionBlocks.DecodeEncode | notion_manager.py:203-240 | Round trip: decoding the encoded children returns the original highlights and notes unchanged. |
| NotionBlocks.DecodeEncodePrefix | notion_manager.py:54-76 | Decoding only the first `n` encoded blocks yields the first `n - 1` highlights. Notes appear only once both headings and all highlights fit, and then as a prefix of the notes. |
| NotionManager.FirstMatch | notion_manager.py:92-100 | The query with page size 1 returns nothing iff no live page has exactly that title. Otherwise it returns a matching page with no match before it. |
| NotionManager.GetBookId | notion_manager.py:82-115 | A refused query fails. An answered query succeeds: with `None` iff no live page has exactly that title (so "Dune" never returns "Dune Messiah"), and otherwise with the id of the first matching page. |
| NotionManager.ArchiveAt | notion_manager.py:133-144 | The patched page becomes archived and is otherwise unchanged. Every other page is unchanged. |
| NotionManager.DeleteBook | notion_manager.py:117-151 | A refused lookup fails with the store unchanged. With no match (or an empty id), the result is False with the store unchanged. A refused archive fails with the store's message and the store unchanged. Otherwise the result is True, and exactly the first match is archived while every other page stays as it was. |
| NotionManager.InsertBook | notion_manager.py:279-289 | The existing match is archived before anything is created. A failed lookup or archive propagates, and no page is created. Once the archive succeeds, the match stays archived whether or not the create succeeds (no rollback). With no archivable match (none, or an empty id), the old pages are left exactly as they were. Success happens iff the lookup and create succeed and any needed archive succeeds. It then returns True and appends exactly one live page with the given title, author and encoded body. Only the match may change among the old pages. |
| NotionManager.InsertKeepsOneLivePerTitle | notion_manager.py:279-289 | In a store whose page ids are all non-empty, if at most one live page per title existed before an insert, the same holds afterwards, whatever the store answers. |
| NotionManager.InsertLeavesOneLive | notion_manager.py:279-289 | In a store with non-empty ids and at most one live page per title, after a successful insert the new page is the only live page with its title, and the lookup returns its id. |
| NotionManager.InsertKeepsIdsUnique | notion_manager.py:282-289 | With a fresh, non-empty new id, page ids stay non-empty and distinct. |
| NotionManager.ResyncLeavesLatest | notion_manager.py:279-289 | In a store with non-empty ids and at most one live page per title, syncing one title twice, both times successfully (the first new id non-empty), leaves exactly one live page with that title: the second page, with the second call's author and content. The first page is archived. |
| NotionManager.ServeChildren | notion_manager.py:54-62 | A children request answers iff the page exists, with the first `pageSize` blocks of the page's body (all of it when it is shorter). |
| NotionManager.GetHighlightsAndNotes | notion_manager.py:62-80 | It succeeds iff the status is 200. Otherwise it fails with the store's message. On success, the result is the decoding of the returned blocks: the quote texts as highlights and the callout texts as notes, in block order and with repeats kept. |
| NotionManager.ReadBackAfterInsert | notion_manager.py:54-78 | A page inserted successfully under a fresh id, read back right after the insert, yields prefixes of the inserted highlights and notes. When the page size covers all blocks, it yields exactly the inserted highlights and notes. |
| KindleScraper.DropPrefix | kindle_scraper.py:51 | The author is line 1 with its first four characters dropped. It is empty when the line has at most four characters. |
| KindleScraper.Partition | kindle_scraper.py:68-73 | No empty text is kept. There are at most as many texts as elements. Every highlight is held by an element with id `highlight`. |
| KindleScraper.PartitionContents | kindle_scraper.py:68-76 | The loop over the content elements computes exactly `Partition`. |
| KindleScraper.PartitionAppend | kindle_scraper.py:68-73 | Order is preserved: the partition of `a + b` is the partition of `a` followed by that of `b`, within both highlights and notes. |
| KindleScraper.PartitionCount | kindle_scraper.py:68-73 | `|highlights| + |notes|` equals the number of elements with non-empty text. |
| KindleScraper.PartitionMembers | kindle_scraper.py:69-73 | A text is a highlight iff it is non-empty and an element with id `highlight` holds it. It is a note iff it is non-empty and an element with another id holds it. |
| KindleScraper.ScrapeBook | kindle_scraper.py:50-76 | It succeeds iff the entry has at least two lines. The title is line 0, the author is line 1 with its prefix dropped, and highlights and notes are the partition of the panel. |
| KindleScraper.GetHighlightsAndNotes | kindle_scraper.py:42-82 | On success there is exactly one record per entry, in library order. The scrape fails iff some entry has fewer than two lines, and it then reports the first such entry. |
| Sync.ScrapedBookReadsBack | kindle_scraper.py:68-78 | A scraped book inserted under a fresh id reads back with exactly its scraped highlights and notes when the page size covers them. |
| Sync.LookupIsExact | notion_manager.py:92-100 | A lookup for "Dune" in a database holding only "Dune Messiah" returns `None`. |
| Sync.FirstSyncExample | notion_manager.py:203-289 | Syncing "1984" into an empty database creates exactly one live page. It has Title "1984", Author "George Orwell" and body HIGHLIGHTS, the quote, NOTES, the callout. |

## Left out

- HTTP requests, headers, the bearer token, the API version, URLs and JSON
  parsing. These are network plumbing; each request is a `Reply` parameter.
  A reply body that is not JSON (which would raise before the status check)
  is not modelled.
- `get_all_books` (notion_manager.py:10-38). It is a single unfiltered query
  turned into an id-to-title dictionary, with no logic to prove.
- Store behaviour. How ids are assigned, pagination beyond the first page of
  children, and whether the title query skips archived pages are stated
  assumptions, not proved facts.
- Cosmetic block fields: the colours, `is_toggleable`, the emoji icon and
  `link`. They do not affect structure.
- Rich text with several runs or none. The decoder reads only the first run
  of a quote or callout, and raises on a block with no run. The encoder always
  writes exactly one run, so a block holds a single text here.
- The store's limits on children per request and characters per text. These
  are server rules the code does not handle.
- All browser automation: driver setup, `login` and its 45-second wait,
  `get_books`, the XPath lookups, `click`, the wait for the content panel, and
  `print`. A library entry arrives already split into its text lines, so
  `splitlines` is not modelled.
- The program that drives the scraper and the manager over a whole library.
  It is not part of this model.
- NotionBlocks.Decode: its own contract states only a length bound. The
  contents are stated by `DecodeAppend` and `DecodeMembers`.

=== FILE: annotations.dfy ===
/** What the tool carries for one book, on both the Kindle and the Notion side. */
module BookNotes {

  /** The highlights and notes of one book, each in reading order. */
  datatype Annotations = Annotations(highlights: seq<string>, notes: seq<string>)
}

=== FILE: blocks.dfy ===
/**
 * The content blocks of a book page and their encoding of a book's highlights
 * and notes: a "HIGHLIGHTS" heading, one quote per highlight, a "NOTES" heading,
 * then one callout per note. Decoding keeps the quotes and callouts and drops
 * everything else. Colour, toggle state, emoji icon and link fields of the
 * blocks carry no structure and are not represented.
 */
module NotionBlocks {
  import opened BookNotes

  /** One child block of a page, holding the text of its single rich-text run. */
  datatype Block =
    | Heading(text: string)   // a `heading_1` block
    | Quote(text: string)     // a `quote` block: one highlight
    | Callout(text: string)   // a `callout` block: one note
    | Other(kind: string)     // any other block type a page may hold

  const HighlightsTitle: string := "HIGHLIGHTS"
  const NotesTitle: string := "NOTES"

  /** One quote block per highlight, in order. */
  function Quotes(hs: seq<string>): (r: seq<Block>)
    ensures |r| == |hs|
    ensures forall i :: 0 <= i < |hs| ==> r[i] == Quote(hs[i])
  {
    if hs == [] then [] else [Quote(hs[0])] + Quotes(hs[1..])
  }

  /** One callout block per note, in order. */
  function Callouts(ns: seq<string>): (r: seq<Block>)
    ensures |r| == |ns|
    ensures forall j :: 0 <= j < |ns| ==> r[j] == Callout(ns[j])
  {
    if ns == [] then [] else [Callout(ns[0])] + Callouts(ns[1..])
  }

  /**
   * The children of a new book page. Position 0 is the highlights heading,
   * positions 1 .. |hs| the quotes, position |hs| + 1 the notes heading and the
   * rest the callouts; an empty list still gets its heading.
   */
  function Encode(hs: seq<string>, ns: seq<string>): (r: seq<Block>)
    ensures |r| == |hs| + |ns| + 2
    ensures r[0] == Heading(HighlightsTitle)
    ensures r[|hs| + 1] == Heading(NotesTitle)
    ensures forall i :: 0 <= i < |hs| ==> r[1 + i] == Quote(hs[i])
    ensures forall j :: 0 <= j < |ns| ==> r[|hs| + 2 + j] == Callout(ns[j])
  {
    [Heading(HighlightsTitle)] + Quotes(hs) + [Heading(NotesTitle)] + Callouts(ns)
  }

  /**
   * The loop that assembles the children list: the highlights heading, one
   * quote appended per highlight, the notes heading, one callout appended per
   * note. It builds exactly the layout `Encode` describes.
   */
  method BuildChildren(hs: seq<string>, ns: seq<string>) returns (children: seq<Block>)
    ensures children == Encode(hs, ns)
  {
    children := [Heading(HighlightsTitle)];
    var i := 0;
    while i < |hs|
      invariant 0 <= i <= |hs|
      invariant |children| == 1 + i
      invariant children[0] == Heading(HighlightsTitle)
      invariant forall k :: 0 <= k < i ==> children[1 + k] == Quote(hs[k])
    {
      children := children + [Quote(hs[i])];
      i := i + 1;
    }
    children := children + [Heading(NotesTitle)];
    var j := 0;
    while j < |ns|
      invariant 0 <= j <= |ns|
      invariant |children| == |hs| + 2 + j
      invariant children[0] == Heading(HighlightsTitle)
      invariant forall k :: 0 <= k < |hs| ==> children[1 + k] == Quote(hs[k])
      invariant children[|hs| + 1] == Heading(NotesTitle)
      invariant forall k :: 0 <= k < j ==> children[|hs| + 2 + k] == Callout(ns[k])
    {
      children := children + [Callout(ns[j])];
      j := j + 1;
    }
    var e := Encode(hs, ns);
    assert forall k :: 0 <= k < |e| ==> children[k] == e[k] by {
      forall k | 0 <= k < |e|
        ensures children[k] == e[k]
      {
        if k == 0 {
        } else if k <= |hs| {
          assert children[1 + (k - 1)] == Quote(hs[k - 1]);
        } else if k == |hs| + 1 {
        } else {
          assert children[|hs| + 2 + (k - |hs| - 2)] == Callout(ns[k - |hs| - 2]);
        }
      }
    }
  }

  /**
   * Reads a list of blocks back: each quote contributes its text to the
   * highlights and each callout its text to the notes, in block order; every
   * other block, headings included, is skipped.
   */
  function Decode(blocks: seq<Block>): (r: Annotations)
    ensures |r.highlights| + |r.notes| <= |blocks|
  {
    if blocks == [] then Annotations([], [])
    else
      var rest := Decode(blocks[1..]);
      match blocks[0]
      case Quote(t) => Annotations([t] + rest.highlights, rest.notes)
      case Callout(t) => Annotations(rest.highlights, [t] + rest.notes)
      case _ => rest
  }

  /** Decoding a concatenation decodes each part and concatenates the results in order. */
  lemma {:induction false} DecodeAppend(a: seq<Block>, b: seq<Block>)
    ensures Decode(a + b).highlights == Decode(a).highlights + Decode(b).highlights
    ensures Decode(a + b).notes == Decode(a).notes + Decode(b).notes
  {
    if a == [] {
      assert a + b == b;
    } else {
      var ab := a + b;
      assert ab[0] == a[0];
      assert ab[1..] == a[1..] + b;
      DecodeAppend(a[1..], b);
      var rest, restA := Decode(ab[1..]), Decode(a[1..]);
      match a[0]
      case Quote(t) =>
        assert Decode(ab) == Annotations([t] + rest.highlights, rest.notes);
        assert Decode(a) == Annotations([t] + restA.highlights, restA.notes);
      case Callout(t) =>
        assert Decode(ab) == Annotations(rest.highlights, [t] + rest.notes);
        assert Decode(a) == Annotations(restA.highlights, [t] + restA.notes);
      case Heading(_) =>
        assert Decode(ab) == rest && Decode(a) == restA;
      case Other(_) =>
        assert Decode(ab) == rest && Decode(a) == restA;
    }
  }

  /**
   * A text is among the decoded highlights exactly when some block is a quote
   * holding it, and among the decoded notes exactly when some block is a
   * callout holding it.
   */
  lemma {:induction false} DecodeMembers(blocks: seq<Block>)
    ensures forall t :: t in Decode(blocks).highlights <==> Quote(t) in blocks
    ensures forall t :: t in Decode(blocks).notes <==> Callout(t) in blocks
  {
    if blocks != [] {
      DecodeMembers(blocks[1..]);
      assert blocks == [blocks[0]] + blocks[1..];
      forall t
        ensures Quote(t) in blocks <==> Quote(t) == blocks[0] || Quote(t) in blocks[1..]
        ensures Callout(t) in blocks <==> Callout(t) == blocks[0] || Callout(t) in blocks[1..]
      {
      }
    }
  }

  lemma {:induction false} DecodeQuotes(hs: seq<string>)
    ensures Decode(Quotes(hs)) == Annotations(hs, [])
  {
    if hs != [] {
      DecodeQuotes(hs[1..]);
      assert Quotes(hs)[1..] == Quotes(hs[1..]);
      assert [hs[0]] + hs[1..] == hs;
    }
  }

  lemma {:induction false} DecodeCallouts(ns: seq<string>)
    ensures Decode(Callouts(ns)) == Annotations([], ns)
  {
    if ns != [] {
      DecodeCallouts(ns[1..]);
      assert Callouts(ns)[1..] == Callouts(ns[1..]);
      assert [ns[0]] + ns[1..] == ns;
    }
  }

  /** Decoding the children of an encoded book gives back its highlights and notes unchanged. */
  lemma DecodeEncode(hs: seq<string>, ns: seq<string>)
    ensures Decode(Encode(hs, ns)) == Annotations(hs, ns)
  {
    var h := [Heading(HighlightsTitle)];
    var n := [Heading(NotesTitle)];
    assert Decode(h) == Annotations([], []) by { assert h[1..] == []; }
    assert Decode(n) == Annotations([], []) by { assert n[1..] == []; }
    DecodeQuotes(hs);
    DecodeCallouts(ns);
    DecodeAppend(h, Quotes(hs));
    DecodeAppend(h + Quotes(hs), n);
    DecodeAppend(h + Quotes(hs) + n, Callouts(ns));
  }

  /** `x` clamped into `0 .. hi`. */
  function Clamp(x: int, hi: nat): (r: nat)
    ensures r <= hi
  {
    if x < 0 then 0 else if x > hi then hi else x
  }

  /**
   * Decoding only the first `n` encoded blocks (a page of children cut short)
   * gives a prefix of the highlights and a prefix of the notes: the first
   * `n - 1` highlights, and notes only once every highlight and both headings
   * are inside the cut.
   */
  lemma DecodeEncodePrefix(hs: seq<string>, ns: seq<string>, n: nat)
    requires n <= |hs| + |ns| + 2
    ensures Decode(Encode(hs, ns)[..n]) == Annotations(hs[..Clamp(n - 1, |hs|)], ns[..Clamp(n - |hs| - 2, |ns|)])
  {
    var e := Encode(hs, ns);
    var h := [Heading(HighlightsTitle)];
    assert Decode(h) == Annotations([], []) by { assert h[1..] == []; }
    if n == 0 {
      assert e[..n] == [];
    } else if n <= |hs| + 1 {
      var a := hs[..n - 1];
      assert e[..n] == h + Quotes(a);
      DecodeAppend(h, Quotes(a));
      DecodeQuotes(a);
      assert ns[..0] == [];
    } else {
      var b := ns[..n - |hs| - 2];
      assert e[..n] == Encode(hs, b);
      DecodeEncode(hs, b);
      assert hs[..|hs|] == hs;
    }
  }
}

=== FILE: manager.dfy ===
/**
 * The book database as the sync sees it, and the three requests that keep
 * one page per title: the title lookup, the archive of the match, and the
 * delete-then-create insert. Every request is answered by the store with a
 * status and a message (`Reply`); the answers are parameters of the model, so
 * nothing here depends on the network. Assumptions about the store, not code:
 * the title query returns the live (non-archived) pages whose title equals the
 * argument, in store order; an id denotes the page it was read from; a request
 * that is refused leaves the store unchanged; a children request returns the
 * first `pageSize` blocks of the page.
 */
module NotionManager {
  import opened Results
  import opened BookNotes
  import opened NotionBlocks

  /** One page of the books database. */
  datatype Page = Page(id: string, title: string, author: string, body: seq<Block>, archived: bool)

  /** The database, in creation order. */
  type Store = seq<Page>

  /** The store's answer to one request. */
  datatype Reply = Reply(status: int, message: string) {
    predicate Ok() {
      status == 200
    }
  }

  /** The answers to the requests of one `InsertBook`, and the id the store gives the new page. */
  datatype Replies = Replies(query: Reply, patch: Reply, create: Reply, newId: string)

  /** The answer to a children request of a page. */
  datatype ChildrenReply = ChildrenReply(status: int, results: seq<Block>, message: string)

  /**
   * The errors the manager raises. `LookupFailed` has no message: the lookup
   * indexes `results` of the reply without checking its status, so a refused
   * query surfaces as a missing-key error rather than the store's message.
   */
  datatype Error =
    | LookupFailed
    | FetchFailed(message: string)
    | DeleteFailed(message: string)
    | InsertFailed(message: string)

  /** The store after a request, with the request's value or error. */
  datatype Step<T> = Step(store: Store, result: Result<T, Error>)

  /** A page the title query for `title` returns: live, and titled exactly `title`. */
  predicate IsMatch(p: Page, title: string) {
    !p.archived && p.title == title
  }

  /** No two live pages share a title. */
  ghost predicate AtMostOneLivePerTitle(s: Store) {
    forall i, j :: 0 <= i < |s| && 0 <= j < |s| && IsMatch(s[i], s[j].title) && !s[j].archived ==> i == j
  }

  /** Every page has a non-empty id. */
  ghost predicate NonEmptyIds(s: Store) {
    forall i :: 0 <= i < |s| ==> s[i].id != ""
  }

  /** The lookup finds a page it can archive: a first match with a non-empty id. */
  predicate HasArchivableMatch(s: Store, title: string) {
    var m := FirstMatch(s, title);
    m.Some? && s[m.value].id != ""
  }

  /** The page the title query (page size 1) returns: the first match in store order. */
  function FirstMatch(s: Store, title: string): (r: Option<nat>)
    ensures r.None? <==> forall i :: 0 <= i < |s| ==> !IsMatch(s[i], title)
    ensures r.Some? ==> r.value < |s| && IsMatch(s[r.value], title)
    ensures r.Some? ==> forall j :: 0 <= j < r.value ==> !IsMatch(s[j], title)
  {
    if s == [] then None
    else if IsMatch(s[0], title) then Some(0)
    else
      match FirstMatch(s[1..], title)
      case None =>
        assert forall i :: 1 <= i < |s| ==> s[i] == s[1..][i - 1];
        None
      case Some(k) =>
        assert forall j :: 1 <= j < k + 1 ==> s[j] == s[1..][j - 1];
        Some(k + 1)
  }

  /**
   * The id of the page titled exactly `title`, if there is one. A refused
   * query fails; otherwise the result is `None` when no live page has that
   * title and the id of the first one that has it otherwise.
   */
  function GetBookId(s: Store, title: string, query: Reply): (r: Result<Option<string>, Error>)
    ensures !query.Ok() <==> r == Failure(LookupFailed)
    ensures r == Success(None) <==> query.Ok() && forall i :: 0 <= i < |s| ==> !IsMatch(s[i], title)
    ensures query.Ok() && FirstMatch(s, title).Some? ==> r == Success(Some(s[FirstMatch(s, title).value].id))
    ensures r.Success? && r.value.Some? ==>
              exists k :: 0 <= k < |s| && IsMatch(s[k], title) && s[k].id == r.value.value
                          && forall j :: 0 <= j < k ==> !IsMatch(s[j], title)
  {
    if !query.Ok() then Failure(LookupFailed)
    else
      match FirstMatch(s, title)
      case None => Success(None)
      case Some(k) => Success(Some(s[k].id))
  }

  /** The store after the page at `k` is archived. */
  function ArchiveAt(s: Store, k: nat): (r: Store)
    requires k < |s|
    ensures |r| == |s| && r[k].archived
    ensures r[k] == s[k].(archived := true)
    ensures forall j :: 0 <= j < |s| && j != k ==> r[j] == s[j]
  {
    s[k := s[k].(archived := true)]
  }

  /**
   * Archives the page titled `title`. Returns false and leaves the store alone
   * when the lookup finds nothing (or an empty id); fails with the lookup's
   * error, or with the patch's message when the archive is refused; otherwise
   * archives exactly the first match and returns true.
   */
  function DeleteBook(s: Store, title: string, query: Reply, patch: Reply): (r: Step<bool>)
    ensures !query.Ok() ==> r == Step(s, Failure(LookupFailed))
    ensures r.result != Success(true) ==> r.store == s
    ensures r.result == Success(false) <==> query.Ok() && !HasArchivableMatch(s, title)
    ensures r.result.Failure? && query.Ok() ==> r.result == Failure(DeleteFailed(patch.message))
    ensures r.result == Success(true) <==> query.Ok() && patch.Ok() && HasArchivableMatch(s, title)
    ensures r.result == Success(true) ==>
              var k := FirstMatch(s, title).value;
              |r.store| == |s| && r.store[k] == s[k].(archived := true)
              && forall j :: 0 <= j < |s| && j != k ==> r.store[j] == s[j]
  {
    match GetBookId(s, title, query)
    case Failure(e) => Step(s, Failure(e))
    case Success(None) => Step(s, Success(false))
    case Success(Some(id)) =>
      if id == "" then Step(s, Success(false))
      else if !patch.Ok() then Step(s, Failure(DeleteFailed(patch.message)))
      else Step(ArchiveAt(s, FirstMatch(s, title).value), Success(true))
  }

  /** The page `InsertBook` creates. */
  function NewPage(id: string, title: string, author: string, hs: seq<string>, ns: seq<string>): Page {
    Page(id, title, author, Encode(hs, ns), false)
  }

  /**
   * Inserts a book: first archives the existing page of that title (ignoring
   * whether one existed), then creates a live page with the title, author and
   * encoded highlights and notes. A failed lookup or archive propagates and
   * nothing is created; a refused create fails with its message, after any
   * archive has already happened.
   */
  function InsertBook(s: Store, title: string, author: string, hs: seq<string>, ns: seq<string>,
                      replies: Replies): (r: Step<bool>)
    ensures !replies.query.Ok() ==> r == Step(s, Failure(LookupFailed))
    ensures replies.query.Ok() && HasArchivableMatch(s, title) && !replies.patch.Ok() ==>
              r == Step(s, Failure(DeleteFailed(replies.patch.message)))
    ensures r.result.Success? <==>
              replies.query.Ok() && replies.create.Ok() && (replies.patch.Ok() || !HasArchivableMatch(s, title))
    ensures r.result.Success? ==> r.result == Success(true)
    ensures r.result.Failure? ==> |r.store| == |s|
    ensures r.result.Failure? && replies.query.Ok() && (replies.patch.Ok() || !HasArchivableMatch(s, title)) ==>
              r.result == Failure(InsertFailed(replies.create.message))
    ensures r.result.Success? ==>
              |r.store| == |s| + 1 && r.store[|s|] == NewPage(replies.newId, title, author, hs, ns)
    ensures |r.store| >= |s|
    ensures forall i :: 0 <= i < |s| ==>
              r.store[i] == s[i] || (FirstMatch(s, title) == Some(i) && r.store[i] == s[i].(archived := true))
    ensures r.store != s && HasArchivableMatch(s, title) ==> r.store[FirstMatch(s, title).value].archived
    ensures replies.query.Ok() && replies.patch.Ok() && HasArchivableMatch(s, title) ==>
              r.store[FirstMatch(s, title).value] == s[FirstMatch(s, title).value].(archived := true)
    ensures !HasArchivableMatch(s, title) ==> r.store[..|s|] == s
  {
    var deleted := DeleteBook(s, title, replies.query, replies.patch);
    if deleted.result.Failure? then Step(deleted.store, Failure(deleted.result.error))
    else if !replies.create.Ok() then Step(deleted.store, Failure(InsertFailed(replies.create.message)))
    else Step(deleted.store + [NewPage(replies.newId, title, author, hs, ns)], Success(true))
  }

  /** Every page has a distinct id. */
  ghost predicate UniqueIds(s: Store) {
    forall i, j :: 0 <= i < |s| && 0 <= j < |s| && s[i].id == s[j].id ==> i == j
  }

  /** `id` is not the id of any page. */
  ghost predicate FreshId(s: Store, id: string) {
    id != "" && forall i :: 0 <= i < |s| ==> s[i].id != id
  }

  /** Inserting a book keeps at most one live page per title. */
  lemma InsertKeepsOneLivePerTitle(s: Store, title: string, author: string, hs: seq<string>, ns: seq<string>,
                                   replies: Replies)
    requires AtMostOneLivePerTitle(s) && NonEmptyIds(s)
    ensures AtMostOneLivePerTitle(InsertBook(s, title, author, hs, ns, replies).store)
  {
    var r := InsertBook(s, title, author, hs, ns, replies);
    if r.result.Success? {
      InsertLeavesOneLive(s, title, author, hs, ns, replies);
      var t := r.store;
      forall i, j | 0 <= i < |t| && 0 <= j < |t| && IsMatch(t[i], t[j].title) && !t[j].archived
        ensures i == j
      {
        if i < |s| && j < |s| {
          assert IsMatch(s[i], s[j].title);
        }
      }
    } else {
      forall i, j | 0 <= i < |r.store| && 0 <= j < |r.store| && IsMatch(r.store[i], r.store[j].title) && !r.store[j].archived
        ensures i == j
      {
        assert IsMatch(s[i], s[j].title);
      }
    }
  }

  /**
   * After a successful insert into a store with at most one live page per
   * title, the new page is the only live page with its title, and the lookup
   * returns its id.
   */
  lemma InsertLeavesOneLive(s: Store, title: string, author: string, hs: seq<string>, ns: seq<string>,
                            replies: Replies)
    requires AtMostOneLivePerTitle(s) && NonEmptyIds(s)
    requires InsertBook(s, title, author, hs, ns, replies).result.Success?
    ensures var t := InsertBook(s, title, author, hs, ns, replies).store;
            forall i :: 0 <= i < |t| ==> (IsMatch(t[i], title) <==> i == |s|)
    ensures forall query: Reply | query.Ok() ::
              GetBookId(InsertBook(s, title, author, hs, ns, replies).store, title, query) == Success(Some(replies.newId))
  {
    var t := InsertBook(s, title, author, hs, ns, replies).store;
    forall i | 0 <= i < |s|
      ensures !IsMatch(t[i], title)
    {
      var m := FirstMatch(s, title);
      if IsMatch(s[i], title) {
        assert m.Some? && IsMatch(s[m.value], s[i].title);
        assert m.value == i;
        assert s[i].id != "";
      }
    }
    assert IsMatch(t[|s|], title);
    forall query: Reply | query.Ok()
      ensures GetBookId(t, title, query) == Success(Some(replies.newId))
    {
      assert FirstMatch(t, title) == Some(|s|);
    }
  }

  /** Inserting with a fresh id keeps every page's id non-empty and distinct. */
  lemma InsertKeepsIdsUnique(s: Store, title: string, author: string, hs: seq<string>, ns: seq<string>,
                             replies: Replies)
    requires UniqueIds(s) && NonEmptyIds(s) && FreshId(s, replies.newId)
    ensures var t := InsertBook(s, title, author, hs, ns, replies).store;
            UniqueIds(t) && NonEmptyIds(t)
  {
  }

  /**
   * Syncing the same title twice, both times successfully, leaves exactly one
   * live page with that title: the second one, holding the second call's content.
   */
  lemma ResyncLeavesLatest(s: Store, title: string,
                           author1: string, hs1: seq<string>, ns1: seq<string>, replies1: Replies,
                           author2: string, hs2: seq<string>, ns2: seq<string>, replies2: Replies)
    requires AtMostOneLivePerTitle(s) && NonEmptyIds(s) && replies1.newId != ""
    requires InsertBook(s, title, author1, hs1, ns1, replies1).result.Success?
    requires InsertBook(InsertBook(s, title, author1, hs1, ns1, replies1).store, title, author2, hs2, ns2, replies2).result.Success?
    ensures var t := InsertBook(InsertBook(s, title, author1, hs1, ns1, replies1).store, title, author2, hs2, ns2, replies2).store;
            |t| == |s| + 2
            && (forall i :: 0 <= i < |t| ==> (IsMatch(t[i], title) <==> i == |s| + 1))
            && t[|s| + 1] == NewPage(replies2.newId, title, author2, hs2, ns2)
            && t[|s|].archived
  {
    var s1 := InsertBook(s, title, author1, hs1, ns1, replies1).store;
    InsertKeepsOneLivePerTitle(s, title, author1, hs1, ns1, replies1);
    InsertLeavesOneLive(s, title, author1, hs1, ns1, replies1);
    assert NonEmptyIds(s1);
    InsertLeavesOneLive(s1, title, author2, hs2, ns2, replies2);
    var t := InsertBook(s1, title, author2, hs2, ns2, replies2).store;
    assert FirstMatch(s1, title) == Some(|s|);
    assert t[|s|] == s1[|s|].(archived := true);
  }

  /** The first page with id `id`. */
  function PageWithId(s: Store, id: string): (r: Option<nat>)
    ensures r.Some? ==> r.value < |s| && s[r.value].id == id
    ensures r.None? ==> forall i :: 0 <= i < |s| ==> s[i].id != id
  {
    if s == [] then None
    else if s[0].id == id then Some(0)
    else
      match PageWithId(s[1..], id)
      case None =>
        assert forall i :: 1 <= i < |s| ==> s[i] == s[1..][i - 1];
        None
      case Some(k) => Some(k + 1)
  }

  /** The blocks a children request with page size `pageSize` returns for page `id`, if the store holds it. */
  function ServeChildren(s: Store, id: string, pageSize: nat): (r: Option<seq<Block>>)
    ensures r.Some? <==> exists i :: 0 <= i < |s| && s[i].id == id
    ensures r.Some? ==> |r.value| <= pageSize && exists i :: 0 <= i < |s| && s[i].id == id && r.value <= s[i].body
    ensures r.Some? ==> var body := s[PageWithId(s, id).value].body;
                        r.value == if |body| <= pageSize then body else body[..pageSize]
  {
    match PageWithId(s, id)
    case None => None
    case Some(k) =>
      var body := s[k].body;
      Some(if |body| <= pageSize then body else body[..pageSize])
  }

  /**
   * Reads a book page's highlights and notes from the reply to its children
   * request: the quotes and callouts among the returned blocks when the status
   * is 200, and the store's message otherwise.
   */
  function GetHighlightsAndNotes(reply: ChildrenReply): (r: Result<Annotations, Error>)
    ensures r.Success? <==> reply.status == 200
    ensures r.Failure? ==> r.error == FetchFailed(reply.message)
    ensures r.Success? ==> r.value == Decode(reply.results)
    ensures r.Success? ==> forall t :: t in r.value.highlights <==> Quote(t) in reply.results
    ensures r.Success? ==> forall t :: t in r.value.notes <==> Callout(t) in reply.results
  {
    if reply.status == 200 then
      DecodeMembers(reply.results);
      Success(Decode(reply.results))
    else Failure(FetchFailed(reply.message))
  }

  /**
   * Reading back a page right after it was inserted with a fresh id gives the
   * inserted highlights and notes when the page size covers all its blocks,
   * and prefixes of them when it does not.
   */
  lemma ReadBackAfterInsert(s: Store, title: string, author: string, hs: seq<string>, ns: seq<string>,
                            replies: Replies, pageSize: nat, message: string)
    requires FreshId(s, replies.newId)
    requires InsertBook(s, title, author, hs, ns, replies).result.Success?
    ensures var served := ServeChildren(InsertBook(s, title, author, hs, ns, replies).store, replies.newId, pageSize);
            served.Some?
            && var got := GetHighlightsAndNotes(ChildrenReply(200, served.value, message));
               got.Success? && got.value.highlights <= hs && got.value.notes <= ns
               && (|hs| + |ns| + 2 <= pageSize ==> got.value == Annotations(hs, ns))
  {
    var t := InsertBook(s, title, author, hs, ns, replies).store;
    assert PageWithId(t, replies.newId) == Some(|s|) by {
      assert forall i :: 0 <= i < |s| ==> t[i].id == s[i].id;
    }
    var e := Encode(hs, ns);
    var n := if |e| <= pageSize then |e| else pageSize;
    assert e[..|e|] == e;
    DecodeEncodePrefix(hs, ns, n);
  }
}

=== FILE: results.dfy ===
/** Failure-carrying values used for the Python exceptions and `None` returns of the model. */
module Results {

  /** A value that may be absent, as Python's `None`. */
  datatype Option<+T> = None | Some(value: T)

  /** The outcome of an operation that either returns a value or raises an error. */
  datatype Result<+T, +E> = Success(value: T) | Failure(error: E)
}

=== FILE: scraper.dfy ===
/**
 * The parsing half of the Kindle notebook scraper, with the browser taken
 * away: each library entry is given as the lines of its text and the
 * (id, text) pairs of the content elements its panel shows. The title is the
 * first line, the author the second line without its first four characters,
 * and the non-empty contents are split into
 * highlights and notes by element id.
 */
module KindleScraper {
  import opened Results
  import opened BookNotes

  /** One content element of a book's panel: its `id` attribute and its text. */
  datatype Element = Element(id: string, text: string)

  /** One library entry: the lines of its text and the content elements of its panel. */
  datatype BookView = BookView(lines: seq<string>, contents: seq<Element>)

  /** The record the scraper produces for one book. */
  datatype BookRecord = BookRecord(title: string, author: string, highlights: seq<string>, notes: seq<string>)

  /** The entry at `book` has fewer than two lines, so indexing line 0 or 1 fails. */
  datatype ScrapeError = MissingLine(book: nat)

  const AuthorPrefixLength: nat := 4
  const HighlightId: string := "highlight"

  /** The author line without its first four characters: the Python slice `line[4:]`, empty for short lines. */
  function DropPrefix(line: string): (r: string)
    ensures |r| == if |line| <= AuthorPrefixLength then 0 else |line| - AuthorPrefixLength
    ensures forall i :: 0 <= i < |r| ==> r[i] == line[AuthorPrefixLength + i]
  {
    if |line| <= AuthorPrefixLength then "" else line[AuthorPrefixLength..]
  }

  /** The number of elements with non-empty text. */
  function NonEmptyCount(es: seq<Element>): nat {
    if es == [] then 0 else (if es[0].text != "" then 1 else 0) + NonEmptyCount(es[1..])
  }

  /**
   * The partition of a panel's contents, element by element: an empty text is
   * dropped, a text whose id is "highlight" is appended to the highlights and
   * any other text to the notes.
   */
  function Partition(es: seq<Element>): (r: Annotations)
    ensures "" !in r.highlights && "" !in r.notes
    ensures |r.highlights| + |r.notes| <= |es|
    ensures forall t :: t in r.highlights ==> Element(HighlightId, t) in es
  {
    if es == [] then Annotations([], [])
    else
      var prev := Partition(es[..|es| - 1]);
      var e := es[|es| - 1];
      if e.text == "" then prev
      else if e.id == HighlightId then Annotations(prev.highlights + [e.text], prev.notes)
      else Annotations(prev.highlights, prev.notes + [e.text])
  }

  /**
   * The loop over a panel's content elements: the same partition, built by
   * appending one element at a time.
   */
  method PartitionContents(es: seq<Element>) returns (highlights: seq<string>, notes: seq<string>)
    ensures Annotations(highlights, notes) == Partition(es)
  {
    highlights, notes := [], [];
    var i := 0;
    while i < |es|
      invariant 0 <= i <= |es|
      invariant Annotations(highlights, notes) == Partition(es[..i])
    {
      var e := es[i];
      assert es[..i + 1][..i] == es[..i];
      if e.text != "" {
        if e.id == HighlightId {
          highlights := highlights + [e.text];
        } else {
          notes := notes + [e.text];
        }
      }
      i := i + 1;
    }
    assert es[..|es|] == es;
  }

  /**
   * Splitting a concatenation splits each part and concatenates the results:
   * within the highlights and within the notes, every text of `a` comes before
   * every text of `b`.
   */
  lemma {:induction false} PartitionAppend(a: seq<Element>, b: seq<Element>)
    ensures Partition(a + b) == Annotations(Partition(a).highlights + Partition(b).highlights,
                                      Partition(a).notes + Partition(b).notes)
  {
    if b == [] {
      assert a + b == a;
    } else {
      var b' := b[..|b| - 1];
      assert (a + b)[..|a + b| - 1] == a + b';
      assert (a + b)[|a + b| - 1] == b[|b| - 1];
      PartitionAppend(a, b');
    }
  }

  /** Every non-empty element lands in exactly one of the two lists, so their lengths add up to the non-empty count. */
  lemma {:induction false} PartitionCount(es: seq<Element>)
    ensures |Partition(es).highlights| + |Partition(es).notes| == NonEmptyCount(es)
  {
    if es != [] {
      PartitionCount(es[1..]);
      PartitionAppend([es[0]], es[1..]);
      assert [es[0]] + es[1..] == es;
      assert [es[0]][..0] == [];
    }
  }

  /** Some element whose id is not "highlight" holds `t`. */
  ghost predicate HoldsNote(es: seq<Element>, t: string) {
    exists i :: 0 <= i < |es| && es[i].id != HighlightId && es[i].text == t
  }

  /**
   * A text is a highlight exactly when some element with id "highlight" holds
   * it, and a note exactly when some element with another id holds it; empty
   * texts are in neither.
   */
  lemma {:induction false} PartitionMembers(es: seq<Element>)
    ensures forall t :: t in Partition(es).highlights <==> t != "" && Element(HighlightId, t) in es
    ensures forall t :: t in Partition(es).notes <==> t != "" && HoldsNote(es, t)
  {
    if es != [] {
      var es' := es[..|es| - 1];
      PartitionMembers(es');
      assert es == es' + [es[|es| - 1]];
      forall t
        ensures HoldsNote(es, t) <==> HoldsNote(es', t) || (es[|es| - 1].id != HighlightId && es[|es| - 1].text == t)
      {
        if HoldsNote(es, t) {
          var i :| 0 <= i < |es| && es[i].id != HighlightId && es[i].text == t;
          if i < |es'| {
            assert es'[i] == es[i];
          }
        }
        if HoldsNote(es', t) {
          var i :| 0 <= i < |es'| && es'[i].id != HighlightId && es'[i].text == t;
          assert es[i] == es'[i];
        }
      }
    }
  }

  /** The record of one library entry, or the failure of indexing its first two lines. */
  function ScrapeBook(view: BookView, index: nat): (r: Result<BookRecord, ScrapeError>)
    ensures r.Success? <==> |view.lines| >= 2
    ensures r.Failure? ==> r.error == MissingLine(index)
    ensures r.Success? ==>
              r.value.title == view.lines[0]
              && r.value.author == DropPrefix(view.lines[1])
    ensures r.Success? ==> Annotations(r.value.highlights, r.value.notes) == Partition(view.contents)
  {
    if |view.lines| < 2 then Failure(MissingLine(index))
    else
      var split := Partition(view.contents);
      Success(BookRecord(view.lines[0], DropPrefix(view.lines[1]), split.highlights, split.notes))
  }

  /**
   * The scrape of the whole library: one record per entry, in library order,
   * or the error of the first entry whose text has fewer than two lines (the
   * whole scrape then yields nothing).
   */
  method GetHighlightsAndNotes(books: seq<BookView>) returns (r: Result<seq<BookRecord>, ScrapeError>)
    ensures r.Success? <==> forall b :: b in books ==> |b.lines| >= 2
    ensures r.Success? ==> |r.value| == |books|
    ensures r.Success? ==> forall i :: 0 <= i < |books| ==> ScrapeBook(books[i], i) == Success(r.value[i])
    ensures r.Failure? ==>
              var k := r.error.book;
              k < |books| && |books[k].lines| < 2 && forall j :: 0 <= j < k ==> |books[j].lines| >= 2
  {
    var result: seq<BookRecord> := [];
    var i := 0;
    while i < |books|
      invariant 0 <= i <= |books|
      invariant |result| == i
      invariant forall j :: 0 <= j < i ==> ScrapeBook(books[j], j) == Success(result[j])
    {
      var book := ScrapeBook(books[i], i);
      if book.Failure? {
        return Failure(book.error);
      }
      result := result + [book.value];
      i := i + 1;
    }
    return Success(result);
  }
}

=== FILE: sync.dfy ===
/**
 * The two halves together: a book scraped from the Kindle library, inserted
 * into the books database and read back, and the worked examples of the
 * lookup and of a first sync.
 */
module Sync {
  import opened Results
  import opened BookNotes
  import opened NotionBlocks
  import opened NotionManager
  import opened KindleScraper

  /**
   * A scraped book, once inserted under a fresh id, reads back with exactly
   * the highlights and notes the scraper found, none of them empty, provided
   * the read's page size covers the page's blocks.
   */
  lemma ScrapedBookReadsBack(view: BookView, index: nat, s: Store, replies: Replies, pageSize: nat, message: string)
    requires ScrapeBook(view, index).Success?
    requires FreshId(s, replies.newId)
    requires var rec := ScrapeBook(view, index).value;
             InsertBook(s, rec.title, rec.author, rec.highlights, rec.notes, replies).result.Success?
             && NonEmptyCount(view.contents) + 2 <= pageSize
    ensures var rec := ScrapeBook(view, index).value;
            var t := InsertBook(s, rec.title, rec.author, rec.highlights, rec.notes, replies).store;
            var served := ServeChildren(t, replies.newId, pageSize);
            served.Some?
            && NotionManager.GetHighlightsAndNotes(ChildrenReply(200, served.value, message))
               == Success(Partition(view.contents))
  {
    var rec := ScrapeBook(view, index).value;
    PartitionCount(view.contents);
    ReadBackAfterInsert(s, rec.title, rec.author, rec.highlights, rec.notes, replies, pageSize, message);
  }

  /** A lookup for "Dune" does not return the page titled "Dune Messiah". */
  lemma LookupIsExact()
    ensures var s := [Page("p1", "Dune Messiah", "Frank Herbert", [], false)];
            GetBookId(s, "Dune", Reply(200, "")) == Success(None)
  {
    var s := [Page("p1", "Dune Messiah", "Frank Herbert", [], false)];
    assert !IsMatch(s[0], "Dune");
  }

  /** Syncing "1984" into an empty database creates one live page with the expected properties and blocks. */
  lemma FirstSyncExample()
    ensures var r := InsertBook([], "1984", "George Orwell", ["Big Brother is watching."], ["Theme: surveillance."],
                                Replies(Reply(200, ""), Reply(200, ""), Reply(200, ""), "p1"));
            r.result == Success(true)
            && r.store == [Page("p1", "1984", "George Orwell",
                                [Heading("HIGHLIGHTS"), Quote("Big Brother is watching."),
                                 Heading("NOTES"), Callout("Theme: surveillance.")], false)]
  {
    var e := Encode(["Big Brother is watching."], ["Theme: surveillance."]);
    assert e == [Heading("HIGHLIGHTS"), Quote("Big Brother is watching."), Heading("NOTES"), Callout("Theme: surveillance.")];
  }
}
